=== FILE: README.md ===
# Racing-line reward functions, modelled in Dafny

This project models the two reward functions of the AWS DeepRacer experiments in
`Hirngespinste/reward_functions`. At each simulation step, a reward function
turns the car's telemetry (position, heading, speed, track width, on/off-track
flags, progress, step counter) into one number by comparing it with a baked-in
racing line.

- `reward_function_test_0.5.py` is the normalised-additive variant (module
  `RewardV05`). Each waypoint carries a target speed and a target heading. The
  reward is the mean of three factors: an exponential distance factor, a capped
  squared speed ratio against the least target speed of the closest
  waypoint and up to two after it, clamped at the last row, and a Gaussian heading factor. The heading factor is cut by 0.7
  when the car is turning further away from the line.
- `reward_function_test_0.1.py` is the additive variant (module `RewardV01`).
  Its reward is `1 + distance + 10·speed + 5·heading + progress`. It uses a
  Heron-style distance to the line, a Gaussian speed term, a `cos` power for
  heading, and a progress rate that is pinned to 1 during the first five
  steps. Its `Reward` object records the closest waypoint of step 1.

Shared pieces:

- `PyFloat` models Python's `min` and `list.index` over floats that may be
  `+inf` (the masked distance list), and `abs`, two-argument `min`/`max` and
  integer powers over plain reals.
- `Locator` holds the closest/second-closest search. Both files use it once
  the list of distances is built.
- `Telemetry` holds the `params` record, the off-track gate, and the outcome
  of a call. That outcome is a returned float or a raised `ZeroDivisionError`.
- `Transcendental` holds `sqrt`, `exp`, `cos`, `atan2`, `degrees` and `pi`.
  These are fields of a `Math` record. `Valid(m)` lists the only facts the
  proofs use: `sqrt(0) = 0`, `sqrt(t) > 0` for `t > 0`, `exp(0) = 1`,
  `exp > 0`, `exp(t) < 1` for `t < 0`, `cos(0) = 1`, and `-1 <= cos <= 1`.

Every number is an exact `real`. The racing line is a parameter. State is an
explicit `RewardState` value that is passed in and handed back.

Notes on what the code does:

- In the 0.1 file the Heron distance and the line-coefficient distance do not
  agree. The side `a` is computed from the wrong coordinates (see Findings).
- The 0.1 heading difference is `abs(route - heading)`. It is not folded into
  [0, 180].
- The 0.5 reward has no `1e-3` floor while on track. Its three factors can
  together fall below `1e-3`.
- Both files raise `ZeroDivisionError` for `track_width == 0`. The 0.1 file also
  raises for `steps == 0`, because it divides before pinning the progress
  term. The 0.5 file also raises when the future target speed plus `1e-9` is 0.
  These cases are modelled as outcomes, not excluded by preconditions.
- In the 0.1 file `first_racingpoint_index` is written before any division.
  So it is updated even on a call that then raises.

## Model

| member | source | states |
|---|---|---|
| PyFloat.Minimum | Hirngespinste/reward_functions/reward_function_test_0.5.py:30 | `min` of a non-empty list returns one of its elements, and that element is `<=` every element |
| PyFloat.IndexOf | Hirngespinste/reward_functions/reward_function_test_0.1.py:16 | `list.index(x)` returns a position holding `x` with no earlier position holding `x` |
| PyFloat.ArgMin | Hirngespinste/reward_functions/reward_function_test_0.1.py:16 | `s.index(min(s))` is the lowest index of a least element, so ties go to the first occurrence |
| Locator.ClosestTwo | Hirngespinste/reward_functions/reward_function_test_0.1.py:14-20 | closest is the first argmin. With two or more finite distances, the index found after masking the closest with `inf` differs from it, is the first argmin over all other entries, and is no nearer than the closest. With one entry, both indices are 0 |
| RewardV05.Dist2Points | Hirngespinste/reward_functions/reward_function_test_0.5.py:17-19 | the distance is non-negative and is 0 exactly when the two points coincide |
| RewardV05.ClosestTwoRacingPointsIndex | Hirngespinste/reward_functions/reward_function_test_0.5.py:21-36 | both indices are in range. The first is the first-occurrence nearest waypoint. For two or more waypoints the second is the first-occurrence nearest among the others |
| RewardV05.IsCarLeftOfLine | Hirngespinste/reward_functions/reward_function_test_0.5.py:52-67 | the side test is 0 when the car sits on either reference point |
| RewardV05.SideAntisymmetric | Hirngespinste/reward_functions/reward_function_test_0.5.py:61-67 | swapping the two reference points negates the side test |
| RewardV05.SideZeroIffOnLine | Hirngespinste/reward_functions/reward_function_test_0.5.py:52-67 | for distinct reference points, the side test is 0 exactly when the car lies on the line through them (is `p1 + t·(p2 − p1)` for some `t`) |
| RewardV05.DistToRacingLine | Hirngespinste/reward_functions/reward_function_test_0.5.py:38-50 | the distance is non-negative and is exactly 0 for coincident reference points. Otherwise it is the absolute side test divided by the length of the segment, so it is 0 exactly when the side test is 0 |
| RewardV05.WindowEnd | Hirngespinste/reward_functions/reward_function_test_0.5.py:75 | the lookahead window ends at `current + lookahead`, or at the last index if that comes first. It never passes the end of the table and never wraps |
| RewardV05.FutureOptimalSpeed | Hirngespinste/reward_functions/reward_function_test_0.5.py:69-77 | the result is the target speed of some waypoint in the window and is `<=` every target speed in it, in particular the current waypoint's |
| RewardV05.DistanceFactor | Hirngespinste/reward_functions/reward_function_test_0.5.py:218-220 | the factor is positive. For a non-negative distance and a positive width it is at most 1. It is exactly 1 on the line and below 1 off it |
| RewardV05.SpeedFactor | Hirngespinste/reward_functions/reward_function_test_0.5.py:223-226 | for a non-negative speed and a positive `target + 1e-9`, the factor lies in [0, 1]. It equals 1 exactly when `speed >= target + 1e-9`, and 0 exactly when the speed is 0 |
| RewardV05.HeadingDiff | Hirngespinste/reward_functions/reward_function_test_0.5.py:229-233 | the difference is `abs(optimal − heading)` or its complement to 360. It lies in [0, 180] when both headings lie in [−180, 180], and is left unchanged when it is already at most 180 |
| RewardV05.HeadingDiffSymmetric | Hirngespinste/reward_functions/reward_function_test_0.5.py:230-233 | the heading difference does not depend on the order of the two headings |
| RewardV05.ExtraPenalty | Hirngespinste/reward_functions/reward_function_test_0.5.py:241-248 | the penalty is 0.7 exactly when (left of the line and heading above the target) or (right of it and heading below), and 1.0 otherwise. Equivalently, it is 0.7 exactly when the side sign and `heading − target` are non-zero and agree in sign (their product is positive). In particular it is 1.0 when the sign is 0 or the headings are equal |
| RewardV05.HeadingFactor | Hirngespinste/reward_functions/reward_function_test_0.5.py:238-250 | the factor lies in [0, penalty], is positive for a positive penalty, and equals the penalty at zero heading difference |
| RewardV05.RewardFunction | Hirngespinste/reward_functions/reward_function_test_0.5.py:212-260 | zero track width raises. With non-negative target speeds and non-zero width it returns. Off the track it returns exactly `1e-3`. On the track, with positive width and non-negative speeds, the reward lies in (0, 1] |
| RewardV05.PerfectScore | Hirngespinste/reward_functions/reward_function_test_0.5.py:212-260 | a car on a waypoint, pointing along its target heading and at least `1e-9` above its target speed, scores exactly 1 |
| RewardV05.RepeatedClosestWaypoint | Hirngespinste/reward_functions/reward_function_test_0.5.py:207-209 | when the closest waypoint's position recurs at index `j` and all other earlier waypoints are strictly farther, the runner-up is `j` and the distance to the line is 0 |
| RewardV01.Dist2Points | Hirngespinste/reward_functions/reward_function_test_0.1.py:11-12 | with the parameter order `(x1, x2, y1, y2)`, the distance is non-negative and is 0 exactly when `x1 == x2` and `y1 == y2` |
| RewardV01.ClosestTwoRacingPointsIndex | Hirngespinste/reward_functions/reward_function_test_0.1.py:14-20 | first-occurrence nearest waypoint, and for two or more waypoints the first-occurrence nearest among the others |
| RewardV01.SideAAsWritten | Hirngespinste/reward_functions/reward_function_test_0.1.py:23 | the splatted call yields 0 exactly when `cx == cy` and `sx == sy`, not when the two waypoints coincide |
| RewardV01.HeronHeight | Hirngespinste/reward_functions/reward_function_test_0.1.py:28 | the Heron height over a positive base is non-negative |
| RewardV01.DistToRacingLine | Hirngespinste/reward_functions/reward_function_test_0.1.py:22-28 | the distance is non-negative. When the computed `a` is 0 it is `b`, the car-to-closest distance. Otherwise it is the Heron height |
| RewardV01.DistToRacingLineIntended | Hirngespinste/reward_functions/reward_function_test_0.1.py:22-28 | with `a` taken between the two waypoints, the fallback `b` is returned for coincident waypoints and the Heron height for distinct ones |
| RewardV01.AsWrittenFallbackOnDistinctPoints | Hirngespinste/reward_functions/reward_function_test_0.1.py:23-27 | for the distinct waypoints (1, 1) and (2, 2), the code as written takes the degenerate-line fallback |
| RewardV01.AsWrittenNoFallbackOnCoincidentPoints | Hirngespinste/reward_functions/reward_function_test_0.1.py:23-28 | for two coincident waypoints at (0, 1), the code as written computes `a > 0` and skips the fallback |
| RewardV01.DistanceReward | Hirngespinste/reward_functions/reward_function_test_0.1.py:55 | the term is at least `1e-3`. It is at most 1 for a non-negative distance and is 1 on the line. For a positive width it equals `1e-3` exactly when `dist >= 0.999 · width/2`, so in particular from half the width on |
| RewardV01.SpeedReward | Hirngespinste/reward_functions/reward_function_test_0.1.py:58-62 | the term lies in (0, 1] and equals 1 exactly when `speed == MAX_SPEED` (4.0) |
| RewardV01.DirectionDiff | Hirngespinste/reward_functions/reward_function_test_0.1.py:65-67 | the unfolded heading difference is non-negative |
| RewardV01.UnfoldedDirectionDiff | Hirngespinste/reward_functions/reward_function_test_0.1.py:65-70 | the difference is not folded into [0, 180]: a bearing of 170 degrees against a heading of −170 gives 340, so the 10th power applies although the headings are 20 degrees apart |
| RewardV01.HeadingReward | Hirngespinste/reward_functions/reward_function_test_0.1.py:68-70 | the term lies in [0, 1] and is 1 at zero difference. Beyond 20 degrees the 10th power is no larger than the 4th power of the same cosine |
| RewardV01.ProgressReward | Hirngespinste/reward_functions/reward_function_test_0.1.py:73-75 | the term raises exactly when `steps == 0`. It is 1 for `steps <= 5`. Beyond step 5 it times `steps` equals `10 · progress`. It is non-negative for non-negative progress |
| RewardV01.ClosestIndex | Hirngespinste/reward_functions/reward_function_test_0.1.py:47 | the index a call records is in range and is the first-occurrence nearest waypoint to the car |
| RewardV01.Score | Hirngespinste/reward_functions/reward_function_test_0.1.py:53-81 | the reward is computed without reading the object's state. It raises exactly for zero track width or `steps == 0`. Off the track it returns `1e-3`. On the track, with non-negative progress and `steps >= 1`, it returns at least `1 + 1e-3`, since every added term is non-negative and the distance term is at least `1e-3` |
| RewardV01.Step | Hirngespinste/reward_functions/reward_function_test_0.1.py:9-81 | a call changes nothing of the state on steps other than 1. On step 1 it records the first-occurrence nearest waypoint, even if the call then raises. It raises exactly for zero track width or `steps == 0`. Off the track it returns `1e-3`. On the track, with non-negative progress and `steps >= 1`, it returns at least `1 + 1e-3` |
| RewardV01.RunExtends | Hirngespinste/reward_functions/reward_function_test_0.1.py:47-51 | one more call advances a run by exactly the state `Step` leaves behind, so `Run` is the fold of `Step` over the calls |
| RewardV01.ReplayWithoutFirstStep | Hirngespinste/reward_functions/reward_function_test_0.1.py:50-51 | for any way of locating the closest waypoint, a run of calls none of which has `steps == 1` leaves `first_racingpoint_index` as it was |
| RewardV01.ReplayRecordsLastFirstStep | Hirngespinste/reward_functions/reward_function_test_0.1.py:50-51 | for any way of locating the closest waypoint, after a run of calls `first_racingpoint_index` holds the located waypoint of the last call made with `steps == 1`. Earlier first steps are overwritten |
| RewardV01.RunWithoutFirstStep | Hirngespinste/reward_functions/reward_function_test_0.1.py:47-51 | on a real racing line, calls none of which has `steps == 1` leave `first_racingpoint_index` as it was |
| RewardV01.RunRecordsLastFirstStep | Hirngespinste/reward_functions/reward_function_test_0.1.py:47-51 | on a real racing line, `first_racingpoint_index` ends up holding the closest waypoint of the last call made with `steps == 1` |
| RewardV01.ReplayFromInitialState | Hirngespinste/reward_functions/reward_function_test_0.1.py:5-7 | starting from a fresh `Reward()`, for any way of locating the closest waypoint, `first_racingpoint_index` is still `None` after a run exactly when no call of the run had `steps == 1` |
| RewardV01.RunFromInitialState | Hirngespinste/reward_functions/reward_function_test_0.1.py:5-7 | on a real racing line, a fresh `Reward()` has no recorded index after a run exactly when no call of the run had `steps == 1` |
| RewardV01.ProgressIgnoredDuringBootstrap | Hirngespinste/reward_functions/reward_function_test_0.1.py:73-76 | during steps 1 to 5 the reported progress has no influence on the reward |

## Left out

- Floating point: rounding, NaN and overflow are not modelled. Ties or differences caused by rounding in the locator are out of scope.
- `math.sqrt`, `** 0.5`, `math.exp`, `math.cos`, `math.atan2`, `math.degrees` and `math.pi` are abstract. Only the facts in `Valid` are known about them. `atan2`, `degrees` and `pi` need none.
- The literal racing-line tables are not included. The trajectory is a parameter.
- An empty racing line is excluded by `requires |track| > 0`. There `min` of an empty list would raise `ValueError`, but both tables are non-empty literals.
- Reading `params` (missing keys raise `KeyError`) is left to the host. So are the module-level `reward_object` and `reward_function` wrapper, and the unused `verbose` flag.
- The progress-delta tracker (`previous_progress`, rewarding `delta ** 1.5`) appears in neither file and is not modelled.
- The Heron form and the line-coefficient form are not proved equal. With the argument order of the 0.1 file they are not.
- RewardV05.FutureOptimalSpeed: the lookahead is a natural number. A negative lookahead would give an empty window and raise, but the only call passes 2.
- RewardV05.RewardFunction: proves `0 < reward <= 1` on the track and no `1e-3` floor, because the code applies none there.
- RewardV01.HeronHeight: only non-negativity is stated, because the value depends on the abstract `sqrt`.
- RewardV01.Step: no upper bound is stated, because the progress term `10 · progress / steps` is unbounded.

## Findings

| source | as written | input that shows it | evidently intended | confidence | as-written member | corrected member |
|---|---|---|---|---|---|---|
| Hirngespinste/reward_functions/reward_function_test_0.1.py:23 | `dist_2_points(*closest_coords, *second_closest_coords)` binds `(x1, x2, y1, y2)` to `(cx, cy, sx, sy)`, so `a` measures from `(cx, sx)` to `(cy, sy)` | closest (1, 1), second (2, 2): `a == 0`, so the car-to-closest distance is returned although the line is proper. Closest = second = (0, 1): `a > 0`, so the degenerate line goes through the Heron formula | `a` is the distance between the two waypoints, so the fallback happens exactly for coincident waypoints | high; not executed | RewardV01.AsWrittenFallbackOnDistinctPoints | RewardV01.DistToRacingLineIntended |

`RewardV01.Step` keeps the as-written `RewardV01.DistToRacingLine`, because it
models what the 0.1 file computes. `RewardV01.DistToRacingLineIntended` is the
corrected helper, and its contract states the intended fallback.

=== FILE: locator.dfy ===
/** `closest_2_racing_points_index`, shared by both reward files once the
    list of distances is built: the closest waypoint is the first argmin; the
    second closest is the first argmin after the closest entry has been
    overwritten with `float('inf')` (not removed, so indices stay stable). */
module Locator {
  import opened PyFloat

  /** `k` is the lowest index, other than `c`, whose distance is least among
      all entries other than `c`. */
  ghost predicate IsRunnerUp(s: seq<Ext>, c: int, k: int) {
    && 0 <= k < |s|
    && k != c
    && (forall j :: 0 <= j < |s| && j != c ==> Le(s[k], s[j]))
    && (forall j :: 0 <= j < k && j != c ==> Lt(s[k], s[j]))
  }

  function ClosestTwo(distances: seq<Ext>): (r: (nat, nat))
    requires |distances| > 0
    ensures IsFirstArgMin(distances, r.0)
    ensures r.1 < |distances|
    ensures |distances| == 1 ==> r.1 == 0
    ensures |distances| >= 2 && AllFinite(distances) ==> IsRunnerUp(distances, r.0, r.1)
    ensures |distances| >= 2 && AllFinite(distances) ==> Le(distances[r.0], distances[r.1])
  {
    var closest := ArgMin(distances);
    var second := ArgMin(distances[closest := PosInf]);
    MaskedArgMinIsRunnerUp(distances, closest, second);
    (closest, second)
  }

  /** Masking the closest entry with infinity and taking the first argmin of
      what is left yields the runner-up, provided some other entry is finite. */
  lemma MaskedArgMinIsRunnerUp(s: seq<Ext>, c: int, k: int)
    requires IsFirstArgMin(s, c)
    requires IsFirstArgMin(s[c := PosInf], k)
    ensures |s| >= 2 && AllFinite(s) ==> IsRunnerUp(s, c, k)
  {
    var masked := s[c := PosInf];
    if |s| >= 2 && AllFinite(s) {
      var other := if c == 0 then 1 else 0;
      assert masked[other] == s[other] && s[other].Fin?;
      assert Le(masked[k], masked[other]);
      assert masked[c] == PosInf;
      forall j | 0 <= j < |s| && j != c
        ensures masked[j] == s[j]
      {
      }
    }
  }
}

=== FILE: pyfloat.dfy ===
/** The small part of Python's float arithmetic the reward functions rely on:
    values that may be +infinity (the `float('inf')` mask of the locator),
    the built-ins `min`, `max`, `abs`, `list.index` and the `**` operator with
    a non-negative integer exponent. Rounding is not modelled: every finite
    float is an exact `real`. */
module PyFloat {

  /** A float as the scoring code uses it: finite, or positive infinity. */
  datatype Ext = Fin(val: real) | PosInf

  /** Python's `<=` on such values. */
  predicate Le(a: Ext, b: Ext) {
    b.PosInf? || (a.Fin? && a.val <= b.val)
  }

  /** Python's `<` on such values. */
  predicate Lt(a: Ext, b: Ext) {
    !Le(b, a)
  }

  ghost predicate AllFinite(s: seq<Ext>) {
    forall i :: 0 <= i < |s| ==> s[i].Fin?
  }

  /** `k` is the lowest index holding the least element of `s`. */
  ghost predicate IsFirstArgMin(s: seq<Ext>, k: int) {
    && 0 <= k < |s|
    && (forall j :: 0 <= j < |s| ==> Le(s[k], s[j]))
    && (forall j :: 0 <= j < k ==> Lt(s[k], s[j]))
  }

  /** The built-in `min` over a non-empty list: a left-to-right scan that
      replaces the running minimum only by a strictly smaller element. */
  function Minimum(s: seq<Ext>): (m: Ext)
    requires |s| > 0
    ensures m in s
    ensures forall i :: 0 <= i < |s| ==> Le(m, s[i])
  {
    if |s| == 1 then s[0]
    else
      var rest := Minimum(s[..|s| - 1]);
      if Lt(s[|s| - 1], rest) then s[|s| - 1] else rest
  }

  /** `list.index(x)`: the position of the first element equal to `x`. */
  function IndexOf(s: seq<Ext>, x: Ext): (i: nat)
    requires x in s
    ensures i < |s| && s[i] == x
    ensures forall j :: 0 <= j < i ==> s[j] != x
  {
    if s[0] == x then 0 else 1 + IndexOf(s[1..], x)
  }

  /** `s.index(min(s))`, the idiom both reward files use: it picks the least
      element and, among equal least elements, the first one. */
  function ArgMin(s: seq<Ext>): (k: nat)
    requires |s| > 0
    ensures IsFirstArgMin(s, k)
  {
    IndexOf(s, Minimum(s))
  }

  /** The first-occurrence argmin is unique, so `ArgMin` is fully determined
      by `IsFirstArgMin`. */
  lemma FirstArgMinUnique(s: seq<Ext>, k1: int, k2: int)
    requires IsFirstArgMin(s, k1) && IsFirstArgMin(s, k2)
    ensures k1 == k2
  {
    assert Le(s[k1], s[k2]) && Le(s[k2], s[k1]);
  }

  function Abs(x: real): real {
    if x < 0.0 then -x else x
  }

  /** `x ** 2`. */
  function Square(x: real): real {
    x * x
  }

  lemma SquarePositive(x: real)
    requires x != 0.0
    ensures 0.0 < Square(x)
  {
    if x > 0.0 {
      calc { Square(x); == x * x; > 0.0; }
    } else {
      calc { Square(x); == x * x; == (-x) * (-x); > 0.0; }
    }
  }

  lemma SquareNonNegative(x: real)
    ensures 0.0 <= Square(x)
    ensures Square(x) == 0.0 <==> x == 0.0
  {
    if x != 0.0 {
      SquarePositive(x);
    }
  }

  /** A sum of two squares vanishes only when both terms do. */
  lemma SumOfSquaresZero(a: real, b: real)
    ensures 0.0 <= Square(a) + Square(b)
    ensures Square(a) + Square(b) == 0.0 <==> a == 0.0 && b == 0.0
  {
    SquareNonNegative(a);
    SquareNonNegative(b);
  }

  /** On [0, 1] squaring stays in [0, 1] and fixes exactly 0 and 1. */
  lemma SquareOnUnitInterval(x: real)
    requires 0.0 <= x <= 1.0
    ensures 0.0 <= Square(x) <= 1.0
    ensures Square(x) == 1.0 <==> x == 1.0
    ensures Square(x) == 0.0 <==> x == 0.0
  {
    SquareNonNegative(x);
    if x < 1.0 {
      calc { Square(x); == x * x; <= x * 1.0; < 1.0; }
    } else {
      calc { Square(x); == x * x; == 1.0; }
    }
  }

  /** A product is positive exactly when both factors are non-zero and of
      the same sign. */
  lemma ProductPositive(a: real, b: real)
    ensures 0.0 < a * b <==> (0.0 < a && 0.0 < b) || (a < 0.0 && b < 0.0)
  {
    if 0.0 < a && 0.0 < b {
      assert 0.0 < a * b;
    } else if a < 0.0 && b < 0.0 {
      assert 0.0 < (-a) * (-b);
    } else if a == 0.0 || b == 0.0 {
      assert a * b == 0.0;
    } else if 0.0 < a {
      assert 0.0 < a * (-b);
    } else {
      assert 0.0 < (-a) * b;
    }
  }

  /** A quotient by a positive number is at least 1 exactly when the
      dividend is at least the divisor. */
  lemma QuotientAtLeastOne(a: real, d: real)
    requires 0.0 < d
    ensures 1.0 <= a / d <==> d <= a
  {
    var q := a / d;
    assert q * d == a;
    if q < 1.0 {
      assert q * d < 1.0 * d;
    } else {
      assert q * d >= 1.0 * d;
    }
  }

  /** `min(a, b)`: returns `a` unless `b` is strictly smaller. */
  function MinReal(a: real, b: real): real {
    if b < a then b else a
  }

  /** `max(a, b)`: returns `a` unless `b` is strictly larger. */
  function MaxReal(a: real, b: real): real {
    if b > a then b else a
  }

  /** `x ** n` for a non-negative integer exponent. */
  function Pow(x: real, n: nat): real {
    if n == 0 then 1.0 else x * Pow(x, n - 1)
  }

  lemma {:induction false} PowAdd(x: real, a: nat, b: nat)
    ensures Pow(x, a + b) == Pow(x, a) * Pow(x, b)
  {
    if a > 0 {
      PowAdd(x, a - 1, b);
      assert Pow(x, a + b) == x * Pow(x, a - 1 + b);
    }
  }

  lemma {:induction false} PowOfOne(n: nat)
    ensures Pow(1.0, n) == 1.0
  {
    if n > 0 {
      PowOfOne(n - 1);
    }
  }

  /** An even power is never negative. */
  lemma {:induction false} PowEvenNonNegative(x: real, k: nat)
    ensures Pow(x, 2 * k) >= 0.0
  {
    if k > 0 {
      PowEvenNonNegative(x, k - 1);
      var q := Pow(x, 2 * (k - 1));
      assert Pow(x, 2 * k - 1) == x * q;
      assert Pow(x, 2 * k) == x * (x * q) == (x * x) * q;
      assert x * x >= 0.0;
    }
  }

  /** A power of a number in [-1, 1] stays in [-1, 1]. */
  lemma {:induction false} PowUnitBounded(x: real, n: nat)
    requires -1.0 <= x <= 1.0
    ensures -1.0 <= Pow(x, n) <= 1.0
  {
    if n > 0 {
      PowUnitBounded(x, n - 1);
      var p := Pow(x, n - 1);
      assert Pow(x, n) == x * p;
      if x >= 0.0 {
        if p >= 0.0 { assert x * p <= 1.0 * p; } else { assert x * p >= 1.0 * p; }
      } else {
        if p >= 0.0 { assert x * p >= -1.0 * p; } else { assert x * p <= -1.0 * p; }
      }
    }
  }

  /** Raising a number in [-1, 1] to a higher even power can only shrink it:
      `x ** (2i + 2j) <= x ** (2i)`. */
  lemma HigherEvenPowerSmaller(x: real, i: nat, j: nat)
    requires -1.0 <= x <= 1.0
    ensures 0.0 <= Pow(x, 2 * i + 2 * j) <= Pow(x, 2 * i) <= 1.0
  {
    PowAdd(x, 2 * i, 2 * j);
    PowEvenNonNegative(x, i);
    PowEvenNonNegative(x, j);
    PowUnitBounded(x, 2 * i);
    PowUnitBounded(x, 2 * j);
    var p, q := Pow(x, 2 * i), Pow(x, 2 * j);
    assert Pow(x, 2 * i + 2 * j) == p * q;
    assert 0.0 <= p * q <= p * 1.0;
  }
}

=== FILE: reward_v01.dfy ===
/** `Reward.reward_function` of reward_function_test_0.1.py: the additive
    variant. The racing line holds bare positions; the reward is
    `1 + distance + 10 * speed + 5 * heading + progress`, forced to `FLOOR`
    off the track. The `Reward` object remembers the closest waypoint of the
    first step of an episode. */
module RewardV01 {
  import opened PyFloat
  import opened Transcendental
  import opened Telemetry
  import Locator

  datatype Option<T> = None | Some(value: T)

  /** The fields of a `Reward` object the scoring touches. */
  datatype RewardState = RewardState(firstRacingPointIndex: Option<nat>)

  /** `Reward()`: nothing recorded yet. */
  const INITIAL_STATE: RewardState := RewardState(None)

  /** What one call leaves behind: the object's new state, and the returned
      reward or the exception raised. */
  datatype StepResult = StepResult(state: RewardState, outcome: Outcome)

  const MIN_SPEED: real := 2.0
  const MAX_SPEED: real := 4.0
  const DISTANCE_FLOOR: real := 0.001
  const SPEED_WEIGHT: real := 10.0
  const HEADING_WEIGHT: real := 5.0
  /** Up to this step the progress term is pinned to 1. */
  const BOOTSTRAP_STEPS: int := 5
  /** Up to this heading difference (degrees) the gentler 4th power applies. */
  const GENTLE_HEADING_LIMIT: real := 20.0

  /** `dist_2_points(x1, x2, y1, y2)`: note the parameter order, both
      x-coordinates first. */
  function Dist2Points(m: Math, x1: real, x2: real, y1: real, y2: real): (r: real)
    ensures Valid(m) ==> 0.0 <= r
    ensures Valid(m) ==> (r == 0.0 <==> x1 == x2 && y1 == y2)
  {
    SumOfSquaresZero(x1 - x2, y1 - y2);
    m.sqrt(Square(x1 - x2) + Square(y1 - y2))
  }

  /** Distance between two points, with the arguments in the order the
      helper expects. */
  function Distance(m: Math, p: Point, q: Point): (r: real)
    ensures Valid(m) ==> 0.0 <= r
    ensures Valid(m) ==> (r == 0.0 <==> p == q)
  {
    Dist2Points(m, p.x, q.x, p.y, q.y)
  }

  /** The list comprehension of `closest_2_racing_points_index`. */
  function Distances(m: Math, track: seq<Point>, car: Point): seq<Ext> {
    seq(|track|, i requires 0 <= i < |track| => Fin(Dist2Points(m, track[i].x, car.x, track[i].y, car.y)))
  }

  /** `closest_2_racing_points_index(racing_coords, car_coords)`. */
  function ClosestTwoRacingPointsIndex(m: Math, track: seq<Point>, car: Point): (r: (nat, nat))
    requires |track| > 0
    ensures r.0 < |track| && r.1 < |track|
    ensures IsFirstArgMin(Distances(m, track, car), r.0)
    ensures |track| >= 2 ==> Locator.IsRunnerUp(Distances(m, track, car), r.0, r.1)
    ensures |track| == 1 ==> r.1 == r.0
  {
    Locator.ClosestTwo(Distances(m, track, car))
  }

  /** Side `a` of the triangle as the code computes it:
      `dist_2_points(*closest_coords, *second_closest_coords)` binds
      `(x1, x2, y1, y2)` to `(cx, cy, sx, sy)`, so it is the distance between
      `(cx, sx)` and `(cy, sy)`, not between the two waypoints. */
  function SideAAsWritten(m: Math, c: Point, s: Point): (r: real)
    requires Valid(m)
    ensures 0.0 <= r
    ensures r == 0.0 <==> c.x == c.y && s.x == s.y
  {
    Dist2Points(m, c.x, c.y, s.x, s.y)
  }

  /** Side `a` as evidently intended: the distance between the two waypoints. */
  function SideAIntended(m: Math, c: Point, s: Point): (r: real)
    requires Valid(m)
    ensures 0.0 <= r
    ensures r == 0.0 <==> c == s
  {
    Distance(m, c, s)
  }

  /** Height over side `a` of a triangle with sides `a`, `b`, `c`, by the
      Heron determinant. */
  function HeronHeight(m: Math, a: real, b: real, c: real): (r: real)
    requires Valid(m)
    requires 0.0 < a
    ensures 0.0 <= r
  {
    var det := -Pow(a, 4) + 2.0 * Pow(a, 2) * Pow(b, 2) + 2.0 * Pow(a, 2) * Pow(c, 2)
               - Pow(b, 4) + 2.0 * Pow(b, 2) * Pow(c, 2) - Pow(c, 4);
    var root := m.sqrt(Abs(det));
    assert 0.0 <= root;
    assert 0.0 <= root / (2.0 * a);
    root / (2.0 * a)
  }

  /** `dist_to_racing_line(closest_coords, second_closest_coords, car_coords)`
      as written: when the (mis-computed) side `a` is zero it returns `b`, the
      distance from the car to the closest waypoint. */
  function DistToRacingLine(m: Math, c: Point, s: Point, car: Point): (r: real)
    requires Valid(m)
    ensures 0.0 <= r
    ensures c.x == c.y && s.x == s.y ==> r == Distance(m, car, c)
    ensures !(c.x == c.y && s.x == s.y) ==>
              r == HeronHeight(m, SideAAsWritten(m, c, s), Distance(m, car, c), Distance(m, car, s))
  {
    var a := SideAAsWritten(m, c, s);
    var b := Dist2Points(m, car.x, c.x, car.y, c.y);
    var cc := Dist2Points(m, car.x, s.x, car.y, s.y);
    if a == 0.0 then b else HeronHeight(m, a, b, cc)
  }

  /** The same helper with side `a` computed between the two waypoints: the
      fallback `b` is taken exactly for a degenerate line. */
  function DistToRacingLineIntended(m: Math, c: Point, s: Point, car: Point): (r: real)
    requires Valid(m)
    ensures 0.0 <= r
    ensures c == s ==> r == Distance(m, car, c)
    ensures c != s ==>
              r == HeronHeight(m, SideAIntended(m, c, s), Distance(m, car, c), Distance(m, car, s))
  {
    var a := SideAIntended(m, c, s);
    var b := Distance(m, car, c);
    var cc := Distance(m, car, s);
    if a == 0.0 then b else HeronHeight(m, a, b, cc)
  }

  /** Two distinct waypoints on the diagonal, (1, 1) and (2, 2): the code as
      written sees `a == 0` and returns the distance to the closest waypoint
      instead of the distance to the line. */
  lemma AsWrittenFallbackOnDistinctPoints(m: Math, car: Point)
    requires Valid(m)
    ensures Point(1.0, 1.0) != Point(2.0, 2.0)
    ensures SideAAsWritten(m, Point(1.0, 1.0), Point(2.0, 2.0)) == 0.0
    ensures 0.0 < SideAIntended(m, Point(1.0, 1.0), Point(2.0, 2.0))
    ensures DistToRacingLine(m, Point(1.0, 1.0), Point(2.0, 2.0), car) == Distance(m, car, Point(1.0, 1.0))
  {
  }

  /** Two coincident waypoints at (0, 1): the code as written sees `a > 0`
      and applies the triangle formula to a degenerate line. */
  lemma AsWrittenNoFallbackOnCoincidentPoints(m: Math)
    requires Valid(m)
    ensures 0.0 < SideAAsWritten(m, Point(0.0, 1.0), Point(0.0, 1.0))
    ensures SideAIntended(m, Point(0.0, 1.0), Point(0.0, 1.0)) == 0.0
  {
  }

  /** `distance_reward`: falls linearly from 1 on the line to the floor
      `1e-3` at (nearly) half the track width. */
  function DistanceReward(dist: real, trackWidth: real): (r: real)
    requires trackWidth * 0.5 != 0.0
    ensures DISTANCE_FLOOR <= r
    ensures 0.0 <= dist && 0.0 < trackWidth ==> r <= 1.0
    ensures dist == 0.0 ==> r == 1.0
    ensures 0.0 < trackWidth ==> (r == DISTANCE_FLOOR <==> 0.999 * (trackWidth * 0.5) <= dist)
    ensures 0.0 < trackWidth && trackWidth * 0.5 <= dist ==> r == DISTANCE_FLOOR
  {
    var halfWidth := trackWidth * 0.5;
    FloorThreshold(dist, halfWidth);
    MaxReal(DISTANCE_FLOOR, 1.0 - dist / halfWidth)
  }

  /** `1 - dist / halfWidth` drops to the floor exactly from
      `0.999 * halfWidth` on. */
  lemma FloorThreshold(dist: real, halfWidth: real)
    ensures 0.0 < halfWidth ==> (1.0 - dist / halfWidth <= DISTANCE_FLOOR <==> 0.999 * halfWidth <= dist)
  {
    if 0.0 < halfWidth {
      QuotientAtLeastOne(dist, 0.999 * halfWidth);
      assert dist / halfWidth == (dist / (0.999 * halfWidth)) * 0.999;
    }
  }

  /** `sigma_speed`: a sixth of the speed range. */
  const SIGMA_SPEED: real := Abs(MAX_SPEED - MIN_SPEED) / 6.0

  /** `speed_reward`: a Gaussian centred on `MAX_SPEED`. */
  function SpeedReward(m: Math, speed: real): (r: real)
    requires Valid(m)
    ensures 0.0 < r <= 1.0
    ensures r == 1.0 <==> speed == MAX_SPEED
  {
    var optimalSpeed := MAX_SPEED;
    var dev := Square(Abs(speed - optimalSpeed));
    SquareNonNegative(Abs(speed - optimalSpeed));
    assert Square(SIGMA_SPEED) == 1.0 / 9.0;
    m.exp(-0.5 * dev / Square(SIGMA_SPEED))
  }

  /** `direction_diff`: the unsigned difference between the bearing from the
      car to the second closest waypoint and the car's heading, NOT folded
      into [0, 180]. */
  function DirectionDiff(m: Math, second: Point, car: Point, heading: real): (r: real)
    ensures 0.0 <= r
  {
    var routeDirection := m.degrees(m.atan2(second.y - car.y, second.x - car.x));
    Abs(routeDirection - heading)
  }

  /** The 0.1 difference is not folded: a bearing of 170 degrees and a
      heading of -170 are 20 degrees apart, yet the difference is 340 and
      the harsher 10th power applies. */
  lemma UnfoldedDirectionDiff(m: Math, second: Point, car: Point)
    requires m.degrees(m.atan2(second.y - car.y, second.x - car.x)) == 170.0
    ensures DirectionDiff(m, second, car, -170.0) == 340.0
    ensures HeadingExponent(DirectionDiff(m, second, car, -170.0)) == 10
  {
  }

  /** The exponent of the heading term: 4 up to 20 degrees, 10 beyond. */
  function HeadingExponent(directionDiff: real): nat {
    if directionDiff <= GENTLE_HEADING_LIMIT then 4 else 10
  }

  /** `heading_reward`: `cos(direction_diff)` to the 10th power, or to the
      4th within 20 degrees. */
  function HeadingReward(m: Math, directionDiff: real): (r: real)
    requires Valid(m)
    ensures 0.0 <= r <= 1.0
    ensures directionDiff == 0.0 ==> r == 1.0
    ensures GENTLE_HEADING_LIMIT < directionDiff ==> r <= Pow(m.cos(directionDiff * (m.pi / 180.0)), 4)
  {
    var c := m.cos(directionDiff * (m.pi / 180.0));
    HigherEvenPowerSmaller(c, 2, 3);
    PowOfOne(4);
    var e := HeadingExponent(directionDiff);
    assert directionDiff <= GENTLE_HEADING_LIMIT ==> Pow(c, e) == Pow(c, 4);
    assert directionDiff == 0.0 ==> directionDiff * (m.pi / 180.0) == 0.0;
    assert directionDiff == 0.0 ==> c == 1.0 && Pow(c, e) == Pow(1.0, 4);
    Pow(c, e)
  }

  /** `progress_reward`: progress per step times 10, pinned to 1 during the
      first five steps. The division happens before the pin, so `steps == 0`
      raises. */
  function ProgressReward(progress: real, steps: int): (r: Outcome)
    ensures r.ZeroDivisionError? <==> steps == 0
    ensures r.Returned? && steps <= BOOTSTRAP_STEPS ==> r.value == 1.0
    ensures BOOTSTRAP_STEPS < steps ==> r.Returned? && r.value * (steps as real) == 10.0 * progress
    ensures r.Returned? && 0.0 <= progress && 0 < steps ==> 0.0 <= r.value
  {
    if steps == 0 then ZeroDivisionError
    else
      var rate := 10.0 * progress / (steps as real);
      if steps <= BOOTSTRAP_STEPS then Returned(1.0)
      else
        assert 0.0 <= progress ==> 0.0 <= rate;
        Returned(rate)
  }

  /** The state update of a call: the closest index is recorded on step 1. */
  function RecordFirstIndex(st: RewardState, steps: int, closestIndex: nat): RewardState {
    if steps == 1 then st.(firstRacingPointIndex := Some(closestIndex)) else st
  }

  /** The index of the waypoint closest to the car of call `p`: the index a
      call on step 1 records. */
  function ClosestIndex(m: Math, track: seq<Point>, p: Params): (i: nat)
    requires |track| > 0
    ensures i < |track|
    ensures IsFirstArgMin(Distances(m, track, Car(p)), i)
  {
    ClosestTwoRacingPointsIndex(m, track, Car(p)).0
  }

  /** The reward one call returns, or the exception it raises. Nothing of the
      `Reward` object's state is read. */
  function Score(m: Math, track: seq<Point>, p: Params): (r: Outcome)
    requires Valid(m)
    requires |track| > 0
    ensures r.ZeroDivisionError? <==> p.trackWidth == 0.0 || p.steps == 0
    ensures r.Returned? && OffTrack(p) ==> r.value == FLOOR
    ensures r.Returned? && !OffTrack(p) && 0.0 <= p.progress && 1 <= p.steps ==>
              1.0 + DISTANCE_FLOOR <= r.value
  {
    var (closestIndex, secondIndex) := ClosestTwoRacingPointsIndex(m, track, Car(p));
    var optimals := track[closestIndex];
    var optimalsSecond := track[secondIndex];
    var dist := DistToRacingLine(m, optimals, optimalsSecond, Car(p));
    if p.trackWidth * 0.5 == 0.0 then ZeroDivisionError
    else
      var distanceReward := DistanceReward(dist, p.trackWidth);
      var speedReward := SpeedReward(m, p.speed);
      var headingReward := HeadingReward(m, DirectionDiff(m, optimalsSecond, Car(p), p.heading));
      match ProgressReward(p.progress, p.steps)
      case ZeroDivisionError => ZeroDivisionError
      case Returned(progressReward) =>
        var reward := 1.0 + distanceReward + speedReward * SPEED_WEIGHT
                      + headingReward * HEADING_WEIGHT + progressReward;
        Returned(Gate(p, reward))
  }

  /** One call of `Reward.reward_function(params)`. The state is updated
      before any division, so it changes even on a call that raises. */
  function Step(m: Math, track: seq<Point>, st: RewardState, p: Params): (res: StepResult)
    requires Valid(m)
    requires |track| > 0
    ensures p.steps != 1 ==> res.state == st
    ensures p.steps == 1 ==> res.state.firstRacingPointIndex.Some?
    ensures p.steps == 1 ==> IsFirstArgMin(Distances(m, track, Car(p)), res.state.firstRacingPointIndex.value)
    ensures res.outcome.ZeroDivisionError? <==> p.trackWidth == 0.0 || p.steps == 0
    ensures res.outcome.Returned? && OffTrack(p) ==> res.outcome.value == FLOOR
    ensures res.outcome.Returned? && !OffTrack(p) && 0.0 <= p.progress && 1 <= p.steps ==>
              1.0 + DISTANCE_FLOOR <= res.outcome.value
  {
    StepResult(RecordFirstIndex(st, p.steps, ClosestIndex(m, track, p)), Score(m, track, p))
  }

  /** The state after the host calls `reward_function` once per element of
      `calls`, starting from `st`, where `locate` gives the closest waypoint
      of a call. */
  function Replay(locate: Params -> nat, st: RewardState, calls: seq<Params>): RewardState
  {
    if |calls| == 0 then st
    else
      var n := |calls| - 1;
      RecordFirstIndex(Replay(locate, st, calls[..n]), calls[n].steps, locate(calls[n]))
  }

  /** How a call on the racing line `track` finds its closest waypoint. */
  function Locate(m: Math, track: seq<Point>): Params -> nat
    requires |track| > 0
  {
    p => ClosestIndex(m, track, p)
  }

  /** The state after a sequence of calls on the racing line `track`. */
  function Run(m: Math, track: seq<Point>, st: RewardState, calls: seq<Params>): RewardState
    requires |track| > 0
  {
    Replay(Locate(m, track), st, calls)
  }

  /** One more call moves the run on by exactly the state that `Step` leaves
      behind. */
  lemma RunExtends(m: Math, track: seq<Point>, st: RewardState, calls: seq<Params>, p: Params)
    requires Valid(m)
    requires |track| > 0
    ensures Run(m, track, st, calls + [p]) == Step(m, track, Run(m, track, st, calls), p).state
  {
    assert (calls + [p])[..|calls|] == calls;
  }

  /** Calls none of which is a first step leave the state untouched. */
  lemma {:induction false} ReplayWithoutFirstStep(locate: Params -> nat, st: RewardState, calls: seq<Params>)
    requires forall k :: 0 <= k < |calls| ==> calls[k].steps != 1
    ensures Replay(locate, st, calls) == st
  {
    if |calls| > 0 {
      ReplayWithoutFirstStep(locate, st, calls[..|calls| - 1]);
    }
  }

  /** After any sequence of calls, the recorded index is the closest waypoint
      of the LAST call made with `steps == 1`. */
  lemma {:induction false} ReplayRecordsLastFirstStep(locate: Params -> nat, st: RewardState, calls: seq<Params>, k: nat)
    requires k < |calls| && calls[k].steps == 1
    requires forall j :: k < j < |calls| ==> calls[j].steps != 1
    ensures Replay(locate, st, calls).firstRacingPointIndex == Some(locate(calls[k]))
  {
    var n := |calls| - 1;
    var prefix := calls[..n];
    if k < n {
      assert prefix[k] == calls[k];
      ReplayRecordsLastFirstStep(locate, st, prefix, k);
    }
  }

  /** `ReplayWithoutFirstStep` for the calls of a real run. */
  lemma RunWithoutFirstStep(m: Math, track: seq<Point>, st: RewardState, calls: seq<Params>)
    requires |track| > 0
    requires forall k :: 0 <= k < |calls| ==> calls[k].steps != 1
    ensures Run(m, track, st, calls) == st
  {
    ReplayWithoutFirstStep(Locate(m, track), st, calls);
  }

  /** `ReplayRecordsLastFirstStep` for the calls of a real run. */
  lemma RunRecordsLastFirstStep(m: Math, track: seq<Point>, st: RewardState, calls: seq<Params>, k: nat)
    requires |track| > 0
    requires k < |calls| && calls[k].steps == 1
    requires forall j :: k < j < |calls| ==> calls[j].steps != 1
    ensures Run(m, track, st, calls).firstRacingPointIndex == Some(Locate(m, track)(calls[k]))
  {
    ReplayRecordsLastFirstStep(Locate(m, track), st, calls, k);
  }

  /** Starting from a fresh object, the index stays unrecorded exactly as long
      as no call has been made with `steps == 1`. */
  lemma {:induction false} ReplayFromInitialState(locate: Params -> nat, calls: seq<Params>)
    ensures Replay(locate, INITIAL_STATE, calls).firstRacingPointIndex.None? <==>
            forall k :: 0 <= k < |calls| ==> calls[k].steps != 1
  {
    if |calls| > 0 {
      var n := |calls| - 1;
      var prefix := calls[..n];
      ReplayFromInitialState(locate, prefix);
      assert forall k :: 0 <= k < n ==> prefix[k] == calls[k];
    }
  }

  /** `ReplayFromInitialState` for the calls of a real run. */
  lemma RunFromInitialState(m: Math, track: seq<Point>, calls: seq<Params>)
    requires |track| > 0
    ensures Run(m, track, INITIAL_STATE, calls).firstRacingPointIndex.None? <==>
            forall k :: 0 <= k < |calls| ==> calls[k].steps != 1
  {
    ReplayFromInitialState(Locate(m, track), calls);
  }

  /** During the first five steps the reported progress has no influence on
      the reward. */
  lemma ProgressIgnoredDuringBootstrap(m: Math, track: seq<Point>, p: Params, otherProgress: real)
    requires Valid(m)
    requires |track| > 0
    requires 1 <= p.steps <= BOOTSTRAP_STEPS
    ensures Score(m, track, p) == Score(m, track, p.(progress := otherProgress))
  {
  }
}

=== FILE: reward_v05.dfy ===
/** `reward_function` of reward_function_test_0.5.py: the normalised-additive
    variant. The racing line carries a target speed and a target heading per
    waypoint; the reward is the mean of a distance factor in (0, 1], a speed
    factor in [0, 1] and a heading factor in (0, 1], and is forced to `FLOOR`
    off the track. */
module RewardV05 {
  import opened PyFloat
  import opened Transcendental
  import opened Telemetry
  import Locator

  /** One row of the racing-line table: position, target speed, target
      acceleration (never read by the scoring) and target heading in degrees. */
  datatype Waypoint = Waypoint(x: real, y: real, speed: real, accel: real, heading: real) {
    function Pos(): Point {
      Point(x, y)
    }
  }

  /** How many waypoints past the closest one the speed factor looks at. */
  const LOOKAHEAD: nat := 2
  /** Added to the target speed before dividing by it. */
  const SPEED_EPSILON: real := 0.000000001
  /** Multiplier applied to the heading factor when the car turns away from the line. */
  const TURN_AWAY_PENALTY: real := 0.7

  /** `dist_2_points(x1, y1, x2, y2)`. */
  function Dist2Points(m: Math, x1: real, y1: real, x2: real, y2: real): (r: real)
    ensures Valid(m) ==> 0.0 <= r
    ensures Valid(m) ==> (r == 0.0 <==> x1 == x2 && y1 == y2)
  {
    SumOfSquaresZero(x1 - x2, y1 - y2);
    m.sqrt(Square(x1 - x2) + Square(y1 - y2))
  }

  /** The list comprehension of `closest_2_racing_points_index`: distance
      from every waypoint to the car. */
  function Distances(m: Math, track: seq<Waypoint>, car: Point): seq<Ext> {
    seq(|track|, i requires 0 <= i < |track| => Fin(Dist2Points(m, track[i].x, track[i].y, car.x, car.y)))
  }

  /** `closest_2_racing_points_index(racing_coords, car_coords)`. */
  function ClosestTwoRacingPointsIndex(m: Math, track: seq<Waypoint>, car: Point): (r: (nat, nat))
    requires Valid(m)
    requires |track| > 0
    ensures r.0 < |track| && r.1 < |track|
    ensures IsFirstArgMin(Distances(m, track, car), r.0)
    ensures |track| >= 2 ==> Locator.IsRunnerUp(Distances(m, track, car), r.0, r.1)
    ensures |track| == 1 ==> r.1 == r.0
  {
    Locator.ClosestTwo(Distances(m, track, car))
  }

  /** `is_car_left_of_line`: the cross product of the direction `p1 -> p2`
      with `p1 -> car`; positive on the left, negative on the right. */
  function IsCarLeftOfLine(p1: Point, p2: Point, car: Point): (r: real)
    ensures car == p1 || car == p2 ==> r == 0.0
  {
    var lineX := p2.x - p1.x;
    var lineY := p2.y - p1.y;
    var carX := car.x - p1.x;
    var carY := car.y - p1.y;
    lineX * carY - lineY * carX
  }

  /** The point `p1 + t * (p2 - p1)` of the line through `p1` and `p2`. */
  function Along(p1: Point, p2: Point, t: real): Point {
    Point(p1.x + t * (p2.x - p1.x), p1.y + t * (p2.y - p1.y))
  }

  ghost predicate OnLine(p1: Point, p2: Point, car: Point) {
    exists t :: car == Along(p1, p2, t)
  }

  /** Swapping the two reference points flips the side. */
  lemma SideAntisymmetric(p1: Point, p2: Point, car: Point)
    ensures IsCarLeftOfLine(p2, p1, car) == -IsCarLeftOfLine(p1, p2, car)
  {
  }

  /** For a proper line, the side test is zero exactly on the line. */
  lemma SideZeroIffOnLine(p1: Point, p2: Point, car: Point)
    requires p1 != p2
    ensures IsCarLeftOfLine(p1, p2, car) == 0.0 <==> OnLine(p1, p2, car)
  {
    var lx, ly := p2.x - p1.x, p2.y - p1.y;
    var cx, cy := car.x - p1.x, car.y - p1.y;
    assert IsCarLeftOfLine(p1, p2, car) == lx * cy - ly * cx;
    if lx * cy - ly * cx == 0.0 {
      var t := CollinearWitness(lx, ly, cx, cy);
      assert car == Along(p1, p2, t);
    }
    if OnLine(p1, p2, car) {
      var t :| car == Along(p1, p2, t);
      ScaledIsParallel(lx, ly, cx, cy, t);
    }
  }

  /** A vector `(cx, cy)` parallel to a non-zero vector `(lx, ly)` is a
      multiple of it. */
  lemma CollinearWitness(lx: real, ly: real, cx: real, cy: real) returns (t: real)
    requires lx != 0.0 || ly != 0.0
    requires lx * cy - ly * cx == 0.0
    ensures cx == t * lx && cy == t * ly
  {
    if lx != 0.0 {
      t := cx / lx;
      assert t * lx == cx;
      assert (t * ly) * lx == (t * lx) * ly == cx * ly == cy * lx;
      CancelNonZero(t * ly, cy, lx);
    } else {
      t := cy / ly;
      assert t * ly == cy;
      assert ly * cx == 0.0;
      CancelNonZero(cx, 0.0, ly);
    }
  }

  lemma ScaledIsParallel(lx: real, ly: real, cx: real, cy: real, t: real)
    requires cx == t * lx && cy == t * ly
    ensures lx * cy - ly * cx == 0.0
  {
    assert lx * (t * ly) == ly * (t * lx);
  }

  lemma CancelNonZero(a: real, b: real, c: real)
    requires c != 0.0 && a * c == b * c
    ensures a == b
  {
    assert (a - b) * c == 0.0;
  }

  /** `dist_to_racing_line`: the line-coefficient form of the distance from
      `car` to the line through `p1` and `p2`, and 0.0 for a degenerate line. */
  function DistToRacingLine(m: Math, p1: Point, p2: Point, car: Point): (r: real)
    requires Valid(m)
    ensures 0.0 <= r
    ensures p1 == p2 ==> r == 0.0
    ensures p1 != p2 ==> r == Abs(IsCarLeftOfLine(p1, p2, car)) / Dist2Points(m, p1.x, p1.y, p2.x, p2.y)
    ensures p1 != p2 ==> (r == 0.0 <==> IsCarLeftOfLine(p1, p2, car) == 0.0)
  {
    var numerator := Abs((p2.y - p1.y) * car.x - (p2.x - p1.x) * car.y + (p2.x * p1.y - p1.x * p2.y));
    var denominator := m.sqrt(Square(p2.y - p1.y) + Square(p2.x - p1.x));
    assert numerator == Abs(IsCarLeftOfLine(p1, p2, car));
    assert denominator == Dist2Points(m, p1.x, p1.y, p2.x, p2.y);
    if denominator != 0.0 then numerator / denominator else 0.0
  }

  /** The last index `get_future_optimal_speed` looks at: `lookahead` past
      `current`, clamped to the end of the table (no wrap-around). */
  function WindowEnd(len: nat, current: nat, lookahead: nat): (e: nat)
    requires current < len
    ensures current <= e < len
    ensures e <= current + lookahead
    ensures e == current + lookahead || e == len - 1
  {
    if len - 1 < current + lookahead then len - 1 else current + lookahead
  }

  /** The target speeds of a run of waypoints, as floats. */
  function Speeds(ws: seq<Waypoint>): seq<Ext> {
    seq(|ws|, i requires 0 <= i < |ws| => Fin(ws[i].speed))
  }

  /** `get_future_optimal_speed(racing_coords, current_index, lookahead)`:
      the least target speed over the window from `current` to its clamped end. */
  function FutureOptimalSpeed(track: seq<Waypoint>, current: nat, lookahead: nat): (r: real)
    requires current < |track|
    ensures exists i :: current <= i <= WindowEnd(|track|, current, lookahead) && track[i].speed == r
    ensures forall i :: current <= i <= WindowEnd(|track|, current, lookahead) ==> r <= track[i].speed
    ensures r <= track[current].speed
  {
    var end := WindowEnd(|track|, current, lookahead);
    var window := track[current..end + 1];
    var speeds := Speeds(window);
    var least := Minimum(speeds);
    var k :| 0 <= k < |speeds| && speeds[k] == least;
    assert track[current + k].speed == least.val;
    assert forall i :: current <= i <= end ==> speeds[i - current] == Fin(track[i].speed);
    least.val
  }

  /** `distance_factor`: exponential decay with the distance to the line. */
  function DistanceFactor(m: Math, dist: real, trackWidth: real): (r: real)
    requires Valid(m)
    requires 0.3 * trackWidth != 0.0
    ensures 0.0 < r
    ensures 0.0 <= dist && 0.0 < trackWidth ==> r <= 1.0
    ensures dist == 0.0 ==> r == 1.0
    ensures 0.0 < dist && 0.0 < trackWidth ==> r < 1.0
  {
    var t := -2.0 * (dist / (0.3 * trackWidth));
    assert 0.0 <= dist && 0.0 < trackWidth ==> t <= 0.0;
    assert 0.0 < dist && 0.0 < trackWidth ==> t < 0.0;
    m.exp(t)
  }

  /** `speed_factor`: the speed relative to the future target speed, capped
      at 1 and squared. */
  function SpeedFactor(speed: real, futureOptSpeed: real): (r: real)
    requires futureOptSpeed + SPEED_EPSILON != 0.0
    ensures 0.0 <= speed && 0.0 < futureOptSpeed + SPEED_EPSILON ==>
              && 0.0 <= r <= 1.0
              && (r == 1.0 <==> futureOptSpeed + SPEED_EPSILON <= speed)
              && (r == 0.0 <==> speed == 0.0)
  {
    var denominator := futureOptSpeed + SPEED_EPSILON;
    CappedRatioSquared(speed, denominator);
    Square(MinReal(speed / denominator, 1.0))
  }

  /** For a non-negative speed and a positive denominator, the capped ratio
      squared lies in [0, 1], is 1 exactly from the denominator up and 0
      exactly at speed 0. */
  lemma CappedRatioSquared(speed: real, denominator: real)
    ensures 0.0 <= speed && 0.0 < denominator ==>
              var f := Square(MinReal(speed / denominator, 1.0));
              && 0.0 <= f <= 1.0
              && (f == 1.0 <==> denominator <= speed)
              && (f == 0.0 <==> speed == 0.0)
  {
    if 0.0 <= speed && 0.0 < denominator {
      var ratio := MinReal(speed / denominator, 1.0);
      assert 0.0 <= speed / denominator;
      QuotientAtLeastOne(speed, denominator);
      assert speed == 0.0 <==> speed / denominator == 0.0;
      SquareOnUnitInterval(ratio);
    }
  }

  /** `heading_diff`: the absolute heading difference, folded to at most 180
      degrees when it exceeds 180. */
  function HeadingDiff(optimal: real, heading: real): (r: real)
    ensures r == Abs(optimal - heading) || r == 360.0 - Abs(optimal - heading)
    ensures -180.0 <= optimal <= 180.0 && -180.0 <= heading <= 180.0 ==> 0.0 <= r <= 180.0
    ensures Abs(optimal - heading) <= 180.0 ==> r == Abs(optimal - heading)
  {
    var d := Abs(optimal - heading);
    if d > 180.0 then 360.0 - d else d
  }

  lemma HeadingDiffSymmetric(optimal: real, heading: real)
    ensures HeadingDiff(optimal, heading) == HeadingDiff(heading, optimal)
  {
  }

  /** `extra_penalty`: 0.7 when the car is left of the line and heading more
      to the left than the target, or right of it and heading more to the
      right; 1.0 otherwise. */
  function ExtraPenalty(positionSign: real, heading: real, optimal: real): (r: real)
    ensures r == TURN_AWAY_PENALTY || r == 1.0
    ensures r == TURN_AWAY_PENALTY <==>
              (0.0 < positionSign && optimal < heading) || (positionSign < 0.0 && heading < optimal)
    ensures positionSign == 0.0 || heading == optimal ==> r == 1.0
    ensures r == TURN_AWAY_PENALTY <==> 0.0 < positionSign * (heading - optimal)
  {
    ProductPositive(positionSign, heading - optimal);
    if positionSign > 0.0 && heading > optimal then TURN_AWAY_PENALTY
    else if positionSign < 0.0 && heading < optimal then TURN_AWAY_PENALTY
    else 1.0
  }

  /** `heading_factor`: a Gaussian in the heading difference, times the penalty. */
  function HeadingFactor(m: Math, headingDiff: real, penalty: real): (r: real)
    requires Valid(m)
    ensures 0.0 <= penalty ==> 0.0 <= r <= penalty
    ensures 0.0 < penalty ==> 0.0 < r
    ensures headingDiff == 0.0 ==> r == penalty
  {
    var t := -0.1 * Square(headingDiff);
    assert t <= 0.0;
    var base := m.exp(t);
    assert 0.0 < base <= 1.0;
    assert 0.0 <= penalty ==> base * penalty <= 1.0 * penalty;
    base * penalty
  }

  ghost predicate NonNegativeSpeeds(track: seq<Waypoint>) {
    forall i :: 0 <= i < |track| ==> 0.0 <= track[i].speed
  }

  /** `reward_function(params)` of the 0.5 file. */
  function RewardFunction(m: Math, track: seq<Waypoint>, p: Params): (r: Outcome)
    requires Valid(m)
    requires |track| > 0
    ensures p.trackWidth == 0.0 ==> r.ZeroDivisionError?
    ensures p.trackWidth != 0.0 && NonNegativeSpeeds(track) ==> r.Returned?
    ensures r.Returned? && OffTrack(p) ==> r.value == FLOOR
    ensures r.Returned? && !OffTrack(p) && 0.0 < p.trackWidth && 0.0 <= p.speed && NonNegativeSpeeds(track) ==>
              0.0 < r.value <= 1.0
  {
    var (closestIdx, secondIdx) := ClosestTwoRacingPointsIndex(m, track, Car(p));
    var closest := track[closestIdx];
    var second := track[secondIdx];
    var distLine := DistToRacingLine(m, closest.Pos(), second.Pos(), Car(p));
    if 0.3 * p.trackWidth == 0.0 then ZeroDivisionError
    else
      var distanceFactor := DistanceFactor(m, distLine, p.trackWidth);
      var futureOptSpeed := FutureOptimalSpeed(track, closestIdx, LOOKAHEAD);
      if futureOptSpeed + SPEED_EPSILON == 0.0 then ZeroDivisionError
      else
        var speedFactor := SpeedFactor(p.speed, futureOptSpeed);
        var headingDiff := HeadingDiff(closest.heading, p.heading);
        var positionSign := IsCarLeftOfLine(closest.Pos(), second.Pos(), Car(p));
        var headingFactor := HeadingFactor(m, headingDiff, ExtraPenalty(positionSign, p.heading, closest.heading));
        Returned(Gate(p, (distanceFactor + speedFactor + headingFactor) / 3.0))
  }

  /** A car standing on a waypoint, pointing along its target heading and
      going at least its target speed (plus the epsilon) scores exactly 1. */
  lemma PerfectScore(m: Math, track: seq<Waypoint>, p: Params, k: nat)
    requires Valid(m)
    requires k < |track| && track[k].Pos() == Car(p)
    requires forall i :: 0 <= i < |track| && track[i].Pos() == Car(p) ==>
               track[i].heading == p.heading && track[i].speed + SPEED_EPSILON <= p.speed
    requires NonNegativeSpeeds(track)
    requires !OffTrack(p) && 0.0 < p.trackWidth
    ensures RewardFunction(m, track, p) == Returned(1.0)
  {
    var car := Car(p);
    var d := Distances(m, track, car);
    var (ci, si) := ClosestTwoRacingPointsIndex(m, track, car);
    var closest, second := track[ci], track[si];
    assert d[k] == Fin(0.0);
    assert Le(d[ci], d[k]);
    assert d[ci] == Fin(0.0);
    assert closest.Pos() == car;
    var distLine := DistToRacingLine(m, closest.Pos(), second.Pos(), car);
    assert distLine == 0.0;
    var fos := FutureOptimalSpeed(track, ci, LOOKAHEAD);
    assert 0.0 <= fos <= closest.speed;
    assert SpeedFactor(p.speed, fos) == 1.0;
    assert HeadingDiff(closest.heading, p.heading) == 0.0;
    var sign := IsCarLeftOfLine(closest.Pos(), second.Pos(), car);
    assert sign == 0.0;
    assert ExtraPenalty(sign, p.heading, closest.heading) == 1.0;
  }

  /** The table repeats a waypoint (its first row reappears as its last
      rows). When the closest waypoint's position recurs at index `j` and every
      other waypoint before `j` is strictly farther, the runner-up is `j`, the
      two reference points coincide and the distance to the line is 0. */
  lemma RepeatedClosestWaypoint(m: Math, track: seq<Waypoint>, car: Point, j: nat)
    requires Valid(m)
    requires j < |track|
    requires var (ci, _) := ClosestTwoRacingPointsIndex(m, track, car);
             && j != ci
             && track[j].Pos() == track[ci].Pos()
             && forall k :: 0 <= k < j && k != ci ==> Lt(Distances(m, track, car)[ci], Distances(m, track, car)[k])
    ensures var (ci, si) := ClosestTwoRacingPointsIndex(m, track, car);
            && si == j
            && DistToRacingLine(m, track[ci].Pos(), track[si].Pos(), car) == 0.0
  {
    var d := Distances(m, track, car);
    var (ci, si) := ClosestTwoRacingPointsIndex(m, track, car);
    assert d[j] == d[ci];
    assert Le(d[si], d[j]);
  }
}

=== FILE: telemetry.dfy ===
/** What the simulation host passes in at every step, and what a reward
    function hands back. */
module Telemetry {

  datatype Point = Point(x: real, y: real)

  /** The entries of `params` the two reward functions read. */
  datatype Params = Params(
    x: real,
    y: real,
    heading: real,          // degrees
    speed: real,
    trackWidth: real,
    allWheelsOnTrack: bool,
    isOfftrack: bool,
    progress: real,         // percent of the lap
    steps: int)             // 1-based step counter

  function Car(p: Params): Point {
    Point(p.x, p.y)
  }

  /** The condition of the final gate of both reward functions. */
  predicate OffTrack(p: Params) {
    !p.allWheelsOnTrack || p.isOfftrack
  }

  /** The reward forced whenever the car is off the track. */
  const FLOOR: real := 0.001

  /** A call either returns a float or raises `ZeroDivisionError`, the only
      exception modelled; an `exp` overflow and the `ValueError` of `min` on
      an empty table are left out. */
  datatype Outcome = Returned(value: real) | ZeroDivisionError

  /** The final gate: an off-track car gets `FLOOR`, whatever was computed. */
  function Gate(p: Params, computed: real): real {
    if OffTrack(p) then FLOOR else computed
  }
}

=== FILE: transcendental.dfy ===
/** The `math` functions the reward files call. Their exact values are not
    modelled: a `Math` record supplies them, and `Valid` lists the only facts
    any proof here relies on, each of which the real functions satisfy. */
module Transcendental {

  datatype Math = Math(
    sqrt: real -> real,            // math.sqrt, and `** 0.5`
    exp: real -> real,             // math.exp
    cos: real -> real,             // math.cos, argument in radians
    atan2: (real, real) -> real,   // math.atan2(y, x)
    degrees: real -> real,         // math.degrees
    pi: real)                      // math.pi

  ghost predicate Valid(m: Math) {
    && m.sqrt(0.0) == 0.0
    && (forall t :: 0.0 < t ==> 0.0 < m.sqrt(t))
    && m.exp(0.0) == 1.0
    && (forall t :: 0.0 < m.exp(t))
    && (forall t :: t < 0.0 ==> m.exp(t) < 1.0)
    && m.cos(0.0) == 1.0
    && (forall t :: -1.0 <= m.cos(t) <= 1.0)
  }
}
